=== FILE: README.md ===
# Trace model of a minimal reactive-stream library

This project models the core of `observable.js`. That file is a small push-based
stream library. It defines class `Observable` with the operators `of`, `map`,
`filter`, `concat`, `retry` and `share`. It also defines class `Subject`, a
multicast hub that is both an observer and an observable. The project proves
properties of the model in Dafny.

The model uses trace semantics. A cold Observable is described by the finite
sequence of notifications it delivers to one subscriber: `Next(v)` events, then
at most one terminal `Error(e)` or `Complete` (module `Events`). Each operator
becomes a pure function on traces:

- `Observable` holds `of`, `map` and `filter`. One `subscribe` call is an
  `Execution`: the events delivered plus the subscription handle returned.
- `Concat` holds `concat`. It mirrors `processObservable` and its inner observer
  (`Forward`).
- `Retry` holds `retry`. A cold source may behave differently on each
  subscription, so it is a function from attempt number to trace. `Attempt`
  mirrors `processRequest` and `Relay` mirrors its inner observer.
- `Concat` and `Retry` return a `Run`: the events delivered plus how many times
  sources were subscribed.
- `Subject` holds the observer set and the broadcast. A JavaScript `Set` keeps
  insertion order and ignores re-adding an element, so the set is modelled as a
  duplicate-free sequence of observer identities. What an observer does to the
  Subject while it is being notified is a parameter (`react`).
- `Share` holds `share`. It is one Subject subscribed once to one source trace.
  A schedule interleaves the source's deliveries with outside
  subscribe/unsubscribe calls.

Two behaviours of the code a reader might not expect:

- A subscriber that attaches to a shared observable after the source has
  finished receives nothing at all, not even `complete`. The Subject has no
  terminal state and replays nothing (`Share.ShareLateSubscriber`).
- `retry` keeps the earlier attempts' subscriptions alive rather than
  unsubscribing them. This does not change the events delivered to an
  observer that never unsubscribes, which is what the model covers; the outer
  `unsubscribe` (lines 36 and 71) is not modelled.

## Model

| member | source | states |
|---|---|---|
| Observable.Of | observable.js:76-84 | `of(v)` delivers exactly one value, `v`, then exactly one `complete`; the trace obeys the protocol; the returned subscription does nothing |
| Observable.MapEvents | observable.js:120-130 | the derived observer of `map` keeps every event in place: the values are the projections of the upstream values, in order, and the `error`/`complete` events are unchanged; protocol-abiding input gives protocol-abiding output |
| Observable.Map | observable.js:117-134 | `map` returns the upstream subscription unchanged; its values are the projected upstream values and its termination is the upstream one |
| Observable.FilterEvents | observable.js:139-151 | the derived observer of `filter` keeps exactly the values satisfying the predicate, in order, and leaves `error`/`complete` unchanged; it preserves the protocol |
| Observable.Filter | observable.js:136-155 | `filter` returns the upstream subscription unchanged; its values are the selected upstream values and its termination is the upstream one |
| Observable.KeepAppend | observable.js:141-143 | selecting values distributes over concatenation, so kept values stay in their relative order |
| Observable.MapFusion | observable.js:117-134 | mapping by `f` then by `g` equals mapping once by their composition |
| Observable.FilterFusion | observable.js:136-155 | filtering by `p` then by `q` equals filtering once by `p && q` |
| Observable.FilterKeepsAll | observable.js:141-143 | a predicate true of every value lets the whole trace through unchanged |
| Observable.MapFilterExample | observable.js:117-155 | mapping by `x * 2` then keeping values above 4, over a source emitting 1, 2, 3, 4 and completing, yields exactly the trace 6, 8, `complete` |
| Concat.Concat | observable.js:43-68 | the output obeys the protocol; at most one subscription per source, and at least one when there is a source; with no source the output is just `complete` |
| Concat.Forward | observable.js:53-65 | the inner observer's output obeys the protocol and subscribes at most the remaining queued sources |
| Concat.ForwardCompleted | observable.js:62-64 | a source that completes contributes its values and hands over to the rest of the queue |
| Concat.ForwardStopped | observable.js:55-61 | a source that fails, or never terminates, is forwarded verbatim, and no queued source is subscribed after it |
| Concat.ConcatAllComplete | observable.js:43-68 | when every source completes, the output is all values of source 1, then source 2, and so on, followed by one `complete`, and every source is subscribed |
| Concat.ConcatStopsAt | observable.js:48-66 | when sources before `k` complete and source `k` does not, the output is the values of sources before `k` then source `k`'s own trace, and exactly `k + 1` sources are subscribed |
| Concat.ConcatError | observable.js:53-61 | if source `k` errors, the output holds the full values of sources before `k`, then `k`'s partial values, and ends with that one error; later sources are never subscribed |
| Concat.ConcatSingle | observable.js:43-68 | concatenating a single source reproduces that source's trace |
| Concat.ConcatOfExample | observable.js:43-84 | `concat(of(1), of(2), of(3))` emits 1, 2, 3 then completes, after three subscriptions |
| Retry.Retry | observable.js:9-33 | the output obeys the protocol and the source is subscribed at least once and at most `n + 1` times |
| Retry.Attempt | observable.js:13-30 | starting with counter `c`, the source is subscribed between 1 and `c + 1` times |
| Retry.Relay | observable.js:14-29 | one attempt's inner observer makes at most `counter` further subscriptions and its output obeys the protocol |
| Retry.RelayRetries | observable.js:21-27 | an error with the counter above zero is swallowed: the attempt's values are kept and the next attempt starts with the counter minus one |
| Retry.RelayEnds | observable.js:15-24 | an attempt that completes, never terminates, or errors with the counter at zero is forwarded verbatim and is the last attempt |
| Retry.AttemptTrace | observable.js:13-32 | a run makes `m` attempts; all but the last failed; the last is the first that did not fail, or the one made at counter zero; the output is the failed attempts' values followed by the last attempt's trace |
| Retry.RunOfAttemptsStep | observable.js:25-27 | a failed attempt followed by a run of the remaining attempts is a run of attempts |
| Retry.RetryTrace | observable.js:9-41 | `retry(n)` forwards the values of every attempt, failed ones included, in order; it ends with the last attempt's terminal event; it stops at the first attempt that does not fail, after at most `n + 1` attempts |
| Retry.RetryAlwaysFails | observable.js:21-27 | a source that always fails yields exactly one outer error, the last attempt's own, after exactly `n + 1` attempts |
| Retry.RetryRecovers | observable.js:15-27 | a source that fails `k <= n` times and then completes yields one `complete` after exactly `k + 1` attempts, and no further attempt |
| Retry.RetryZero | observable.js:21-24 | `retry(0)` behaves exactly as the source with a single subscription |
| Retry.FailingAttemptsAsWritten | observable.js:21-27 | with the guard `=== 0` as written and any integer count, the number of attempts made against an always failing source, capped by the bound looked at |
| Retry.NegativeCountRetriesForever | observable.js:21-27 | with a negative count the guard is never met: every attempt up to any bound is made |
| Retry.FailingAttempts | observable.js:21-27 | the same count with the guard `<= 0` never exceeds the bound looked at |
| Retry.FailingAttemptsStop | observable.js:21-27 | with the guard `<= 0` every count stops, after `counter + 1` attempts, or one attempt for a count below one |
| Retry.RetryUsesCorrectedGuard | observable.js:9-32 | on non-negative counts the two guards agree, and `Retry` against an always failing source makes exactly the attempts the corrected guard allows |
| Subject.Subscribe | observable.js:184-186 | subscribing adds the observer to the set; re-adding a present observer changes nothing; the others keep their order |
| Subject.Without | observable.js:190 | deleting from the set removes that observer and keeps every other member, without creating duplicates |
| Subject.Unsubscribe | observable.js:188-192 | the returned `unsubscribe` removes exactly that observer and leaves every other member unchanged |
| Subject.WithoutDeletesAt | observable.js:190 | deleting an observer that sits at position `k` removes exactly that position; the others keep their places and order |
| Subject.UnsubscribeKeepsOrder | observable.js:188-192 | after `unsubscribe` the remaining observers keep their subscription order, so later broadcasts reach them in the same order |
| Subject.UnsubscribeIdempotent | observable.js:189-191 | calling `unsubscribe` twice has the effect of calling it once |
| Subject.UnsubscribeUndoesSubscribe | observable.js:184-192 | unsubscribing a newly subscribed observer restores the set exactly |
| Subject.UnsubscribeCommutes | observable.js:189-191 | two unsubscriptions give the same set in either order |
| Subject.Broadcast | observable.js:198-214 | `next`, `error` and `complete` call the same channel once on each observer of the snapshot taken at the start, in order, whatever the observers subscribe or unsubscribe meanwhile; the set stays duplicate-free |
| Subject.Visit | observable.js:199-201 | the loop over the copied array calls exactly the observers of the copy, in order, each with the broadcast event |
| Subject.BroadcastExactlyOnce | observable.js:198-214 | each observer subscribed at the start of a broadcast gets exactly one call; any other observer, including one that subscribes during the broadcast, gets none |
| Subject.SelfUnsubscribeDuringBroadcast | observable.js:198-202 | observers that unsubscribe themselves when notified do not disturb delivery to the rest, and afterwards exactly they are gone |
| Share.Share | observable.js:157-161 | `share` subscribes the Subject to one execution of the source: every observer receives a subsequence of what that single execution has delivered so far (in order, nothing twice, nothing from anywhere else), and the Subject stays duplicate-free |
| Share.PlayFromSource | observable.js:157-161 | every schedule keeps each observer's received events a subsequence of the events the source has delivered |
| Share.SubsequenceMembers | observable.js:157-161 | such a subsequence is no longer than the delivered prefix and each received event occurs in it |
| Share.Advance | observable.js:157-161 | one step of the shared execution delivers at most one further source event and keeps the state consistent |
| Share.Play | observable.js:157-161 | a schedule only moves forward through the single source trace and keeps the state consistent |
| Share.StepKeepsObserver | observable.js:184-201 | a step other than its own unsubscription keeps an observer subscribed; the observer receives what that step broadcasts |
| Share.SubscribedObserverReceives | observable.js:157-161 | an observer that stays subscribed receives exactly the source events delivered meanwhile, in order |
| Share.ShareObserversAgree | observable.js:157-161 | two observers subscribed before the source delivers anything receive identical sequences: exactly what the single execution delivered |
| Share.ShareLateSubscriber | observable.js:157-161 | an observer subscribing after the source has delivered its whole trace receives nothing, not even `complete` |
| Share.ExhaustedSourceIsSilent | observable.js:198-214 | once the source trace is exhausted, no observer receives anything any more |
| Share.AbsentObserverReceivesNothing | observable.js:184-186 | an observer that never subscribed receives nothing |
| Share.EmitDelivers | observable.js:198-202 | a source event reaches each current member of the Subject exactly once and leaves the set unchanged |

## Left out

- `Observable.timeout` (observable.js:86-100) is not modelled. It depends on `setTimeout`, `clearTimeout` and `console.log`, which are timer and console I/O.
- `Observable.fromEvent` (observable.js:102-115) is not modelled. It registers a listener through the host's `addEventListener`/`removeEventListener`, a foreign API.
- `observeOn` (observable.js:163-178) is not modelled. It defers every call through an arbitrary scheduler, which is asynchrony. Its error branch also references an undefined `v` (line 171), so that path throws instead of delivering the error.
- The demo and commented-out usage code (observable.js:217-267) is not modelled. It is console and DOM wiring.
- The `Observable` constructor and `subscribe` (observable.js:1-7) only store and call the subscribe function. A cold observable is represented directly by the trace it delivers.
- Concat.Concat: defined only for sources that obey the protocol (nothing after `error` or `complete`). A source that keeps calling after it completed is not described:
  - a `next` goes straight to the outer observer (line 56), even after later sources have started;
  - a second `complete` re-enters `processObservable` (line 63) and takes a further source off the queue;
  - an `error` reaches the outer observer and the `unsubscribe` of lines 59-60.
- Retry.Retry: defined only for source executions that obey the protocol, for the same reason.
- Retry.Retry: the count `n` is a non-negative safe integer, at most 2^53 - 1, and the model's count is exact only there. The code handles other arguments as follows. A negative number, a number that is not an integer, `null` (`null - 1` is `-1`) or a missing count (`undefined - 1` is `NaN`, and `NaN === 0` is false) never reaches the `=== 0` guard (line 22). The code then resubscribes an always failing source without end: forever if it fails asynchronously, until a `RangeError` if it fails synchronously. A string or boolean is converted only by the first `- 1`, because the guard compares strictly. One that converts to a positive integer `k`, such as `"1"` or `true`, behaves like `k`. One that converts to 0, such as `"0"`, `false` or `""`, misses the guard on the first failure (`"0" === 0` is false). It then counts down from -1 and never stops. One that converts to `NaN` never stops either. `-0` behaves as `0`, since `-0 === 0`. Above 2^53 the decrement is inexact: from 2^53 + 4 upward `n - 1` rounds back to `n`, so the guard is never met, and the bound of `n + 1` attempts does not describe the code. The negative case is recorded under Findings; the others are not modelled.
- Call-stack depth is not modelled. With synchronous sources, each queued source of `concat` (line 63 calls back into line 54) and each retry (line 26 calls back into line 14) adds nested calls. So `concat` over a few thousand `of(x)` sources, or `retry(20000)` against a source that fails inside `subscribe`, throws a `RangeError` partway through. Concat.ConcatAllComplete and Retry.RetryAlwaysFails promise the full trace regardless.
- Subscription handles of `concat` and `retry` are not modelled, and neither is the outer `unsubscribe` (lines 36 and 71).
  - `concat` assigns `currentSub` only when a source's `subscribe` returns (line 54). A source that completes synchronously has already run the nested `processObservable` and subscribed the next source by then. Line 54 then overwrites the live source's handle with the finished one's. In `concat(of(1), asyncB)`, a later error from B (line 60) and the outer `unsubscribe` (line 71) both unsubscribe `of(1)`, so B is never torn down and keeps delivering after the caller has unsubscribed.
  - A source that errors during its own `subscribe` likewise meets a stale `currentSub` at line 60. If no earlier `subscribe` has returned, it is `null`: the error is delivered first, then a `TypeError` escapes from the outer `subscribe`. Otherwise it is an earlier source's handle, so line 60 unsubscribes a source that has already finished, for example the first source of `concat(asyncA, syncFailingB)`.
  - `retry` overwrites `currentSub` (line 14) without unsubscribing the previous attempt, so earlier attempts are never torn down. When an attempt fails synchronously, the nested `processRequest` first stores the next attempt's live handle. Line 14 of the failed attempt then overwrites it with the finished attempt's handle. The outer `unsubscribe` (line 36) then stops a finished attempt, and the live one keeps running.
  - These defects do not change the events delivered to an observer that never unsubscribes. They do change what happens once it unsubscribes, and that is not modelled.
- Observers missing a channel are not modelled. JavaScript would throw a `TypeError` when such a channel is called; every observer here has all three channels.
- A projection or predicate that throws is not modelled. The exception would escape through the upstream `next` call.
- Subject.Broadcast: an observer's reaction is limited to subscribing and unsubscribing. A nested broadcast started from inside an observer is not modelled. An observer whose handler throws is not modelled either. In the code, the loop at lines 199-201 stops at that observer: the rest of the snapshot gets no call, and the exception escapes to the caller of `next`, `error` or `complete`. Subject.BroadcastExactlyOnce assumes that no handler throws.
- Share.Share: observers of a shared execution do not subscribe or unsubscribe from inside their callbacks. Such changes are outside steps of the schedule instead.
- `Subject.complete(v)` ignores its argument (line 210). It is the broadcast of `Complete`.

## Findings

| source | as written | input that shows it | evidently intended | confidence | as-written member | corrected member |
|---|---|---|---|---|---|---|
| observable.js:22-26 | the retry guard is `currentAttemptNumber === 0` and each retry subtracts one, so a count below zero never meets the guard | `retry(-1)` on a source that always errors: attempts never stop | a count below one means no retry, guard `<= 0` | low, not executed | Retry.NegativeCountRetriesForever | Retry.FailingAttemptsStop |

=== FILE: concat.dfy ===
/** `Observable.concat(...observables)`: subscribe to the sources one after
    another, advancing on `complete` and stopping for good on `error`.

    Each source is described by the trace it delivers to the inner observer;
    the sources are expected to obey the observable protocol.
 */
module Concat {
  import opened Events
  import Observable

  /** Every queued source obeys the protocol. */
  predicate AllWellFormed<V, E>(sources: seq<Trace<V, E>>) {
    forall i :: 0 <= i < |sources| ==> WellFormed(sources[i])
  }

  /** All values of the given traces, one trace after another. */
  function ValuesOfAll<V, E>(ts: seq<Trace<V, E>>): (vs: seq<V>)
  {
    if |ts| == 0 then [] else Values(ts[0]) + ValuesOfAll(ts[1..])
  }

  /** `processObservable`: with no source left, complete the outer observer;
      otherwise take the first source off the queue and subscribe to it. */
  function Concat<V, E>(sources: seq<Trace<V, E>>): (r: Run<V, E>)
    requires AllWellFormed(sources)
    ensures WellFormed(r.events)
    ensures r.subscriptions <= |sources|
    ensures |sources| > 0 ==> r.subscriptions >= 1
    ensures |sources| == 0 ==> Values(r.events) == [] && Terminations(r.events) == [Completed]
    decreases |sources|, 1, 0
  {
    if |sources| == 0 then Run([Complete], 0)
    else
      var inner := Forward(sources[0], sources[1..]);
      Run(inner.events, inner.subscriptions + 1)
  }

  /** The inner observer subscribed to one source, fed with that source's
      trace `t`: `next` is forwarded, `error` is forwarded and ends the outer
      execution without touching `rest`, `complete` moves on to `rest`. The
      count is the number of sources of `rest` subscribed to. */
  function Forward<V, E>(t: Trace<V, E>, rest: seq<Trace<V, E>>): (r: Run<V, E>)
    requires WellFormed(t) && AllWellFormed(rest)
    ensures WellFormed(r.events)
    ensures r.subscriptions <= |rest|
    decreases |rest| + 1, 0, |t|
  {
    if |t| == 0 then Run([], 0)
    else
      WellFormedTail(t);
      match t[0]
      case Next(v) =>
        var r := Forward(t[1..], rest);
        WellFormedCons(t[0], r.events);
        Run([t[0]] + r.events, r.subscriptions)
      case Error(e) => Run([t[0]], 0)
      case Complete => Concat(rest)
  }

  /** A source that completes contributes its values and hands over to the
      rest of the queue. */
  lemma {:induction false} ForwardCompleted<V, E>(t: Trace<V, E>, rest: seq<Trace<V, E>>)
    requires WellFormed(t) && AllWellFormed(rest)
    requires Completes(t)
    ensures Forward(t, rest).events == Nexts(Values(t)) + Concat(rest).events
    ensures Forward(t, rest).subscriptions == Concat(rest).subscriptions
    decreases |t|
  {
    WellFormedTail(t);
    if t[0].Next? {
      assert t[|t| - 1] == t[1..][|t[1..]| - 1];
      ForwardCompleted(t[1..], rest);
      var vs := Values(t);
      assert vs == [t[0].value] + Values(t[1..]);
      assert Nexts<V, E>(vs) == [t[0]] + Nexts(Values(t[1..])) by {
        assert vs[1..] == Values(t[1..]);
      }
    } else {
      assert t == [Complete];
      assert Values(t) == [];
    }
  }

  /** A source that does not complete (it fails, or never terminates) is
      forwarded verbatim and is the last one subscribed. */
  lemma {:induction false} ForwardStopped<V, E>(t: Trace<V, E>, rest: seq<Trace<V, E>>)
    requires WellFormed(t) && AllWellFormed(rest)
    requires !Completes(t)
    ensures Forward(t, rest) == Run(t, 0)
    decreases |t|
  {
    if |t| > 0 {
      WellFormedTail(t);
      if t[0].Next? {
        assert |t| > 1 ==> t[|t| - 1] == t[1..][|t[1..]| - 1];
        ForwardStopped(t[1..], rest);
        assert t == [t[0]] + t[1..];
      } else {
        assert t == [t[0]];
      }
    }
  }

  /** When every source completes, the output is every source's values in
      order followed by a single `complete`, and every source was subscribed. */
  lemma {:induction false} ConcatAllComplete<V, E>(sources: seq<Trace<V, E>>)
    requires AllWellFormed(sources)
    requires forall i :: 0 <= i < |sources| ==> Completes(sources[i])
    ensures Concat(sources).events == Nexts(ValuesOfAll(sources)) + [Complete]
    ensures Concat(sources).subscriptions == |sources|
    decreases |sources|
  {
    if |sources| > 0 {
      var rest := sources[1..];
      ForwardCompleted(sources[0], rest);
      ConcatAllComplete(rest);
      NextsAppend<V, E>(Values(sources[0]), ValuesOfAll(rest));
    }
  }

  /** The queue behind the first source still obeys the protocol. */
  lemma AllWellFormedTail<V, E>(sources: seq<Trace<V, E>>)
    requires AllWellFormed(sources) && |sources| > 0
    ensures AllWellFormed(sources[1..])
  {
    forall i | 0 <= i < |sources[1..]| ensures WellFormed(sources[1..][i]) {
      assert sources[1..][i] == sources[i + 1];
    }
  }

  /** Seen from the queue behind the first source, source `k` is at `k - 1`
      and the completed sources before it are the ones before `k - 1`. */
  lemma ShiftQueue<V, E>(sources: seq<Trace<V, E>>, k: nat)
    requires 0 < k < |sources|
    requires forall i :: 0 <= i < k ==> Completes(sources[i])
    ensures forall i :: 0 <= i < k - 1 ==> Completes(sources[1..][i])
    ensures sources[1..][k - 1] == sources[k]
    ensures ValuesOfAll(sources[..k]) == Values(sources[0]) + ValuesOfAll(sources[1..][..k - 1])
  {
    var rest := sources[1..];
    forall i | 0 <= i < k - 1 ensures Completes(rest[i]) {
      assert rest[i] == sources[i + 1];
    }
    var prefix := sources[..k];
    assert prefix[0] == sources[0];
    assert prefix[1..] == rest[..k - 1];
  }

  /** When sources before `k` complete and source `k` does not (it fails, or
      never terminates), the output is the values of the sources before `k`
      followed by source `k`'s own trace, and no source after `k` is ever
      subscribed. */
  lemma {:induction false} ConcatStopsAt<V, E>(sources: seq<Trace<V, E>>, k: nat)
    requires AllWellFormed(sources)
    requires k < |sources|
    requires forall i :: 0 <= i < k ==> Completes(sources[i])
    requires !Completes(sources[k])
    ensures Concat(sources).events == Nexts(ValuesOfAll(sources[..k])) + sources[k]
    ensures Concat(sources).subscriptions == k + 1
    decreases k
  {
    var rest := sources[1..];
    AllWellFormedTail(sources);
    if k > 0 {
      ForwardCompleted(sources[0], rest);
      ShiftQueue(sources, k);
      ConcatStopsAt(rest, k - 1);
      NextsAppend<V, E>(Values(sources[0]), ValuesOfAll(rest[..k - 1]));
    } else {
      ForwardStopped(sources[0], rest);
    }
  }

  /** Corollary for the error case: if source `k` fails with `error(e)`, the
      output ends with that one error and nothing else terminates it. */
  lemma ConcatError<V, E>(sources: seq<Trace<V, E>>, k: nat)
    requires AllWellFormed(sources)
    requires k < |sources|
    requires forall i :: 0 <= i < k ==> Completes(sources[i])
    requires Fails(sources[k])
    ensures Values(Concat(sources).events) == ValuesOfAll(sources[..k]) + Values(sources[k])
    ensures Terminations(Concat(sources).events) == Terminations(sources[k])
    ensures Fails(Concat(sources).events)
    ensures Concat(sources).subscriptions == k + 1
  {
    ConcatStopsAt(sources, k);
    ValuesAppend(Nexts<V, E>(ValuesOfAll(sources[..k])), sources[k]);
    TerminationsAppend(Nexts<V, E>(ValuesOfAll(sources[..k])), sources[k]);
  }

  /** Concatenating one source changes nothing. */
  lemma ConcatSingle<V, E>(t: Trace<V, E>)
    requires WellFormed(t)
    ensures Concat([t]).events == t
    ensures Concat([t]).subscriptions == 1
  {
    if Completes(t) {
      ConcatAllComplete([t]);
      WellFormedEnding(t);
      WellFormedShape(t);
      assert ValuesOfAll([t]) == Values(t) by {
        assert [t][1..] == [];
      }
    } else {
      ConcatStopsAt([t], 0);
    }
  }

  /** `concat(of(1), of(2), of(3))` emits 1, 2, 3 and then completes once,
      after subscribing to all three sources. */
  lemma ConcatOfExample()
    ensures var sources := [Observable.Of<int, string>(1).events,
                            Observable.Of<int, string>(2).events,
                            Observable.Of<int, string>(3).events];
            Concat(sources) == Run([Next(1), Next(2), Next(3), Complete], 3)
  {
  }
}

=== FILE: events.dfy ===
/** Trace semantics for the push-based streams of observable.js.

    A cold Observable is described by the finite sequence of notifications it
    delivers to ONE subscriber: `next` values, then at most one terminal
    `error` or `complete`. Every operator of the library then becomes a pure
    function from traces to traces.
 */
module Events {

  /** One call on an observer's channels. */
  datatype Event<+V, +E> = Next(value: V) | Error(error: E) | Complete

  /** The terminal part of a trace, independent of the value type, so that
      traces of different value types (before and after `map`) can be compared. */
  datatype Termination<+E> = Errored(error: E) | Completed

  /** The events one subscriber observes, in delivery order. */
  type Trace<V, E> = seq<Event<V, E>>

  /** What a composite operator (`concat`, `retry`) produced: the events its
      observer saw and how many times it subscribed to its sources. */
  datatype Run<V, E> = Run(events: Trace<V, E>, subscriptions: nat)

  /** The observable protocol: no notification follows a terminal one, so only
      the last event of a trace may be an `Error` or a `Complete`. */
  predicate WellFormed<V, E>(t: Trace<V, E>) {
    forall i :: 0 <= i < |t| - 1 ==> t[i].Next?
  }

  /** The trace ends with `complete`. */
  predicate Completes<V, E>(t: Trace<V, E>) {
    |t| > 0 && t[|t| - 1].Complete?
  }

  /** The trace ends with `error`. */
  predicate Fails<V, E>(t: Trace<V, E>) {
    |t| > 0 && t[|t| - 1].Error?
  }

  /** The payloads of the `Next` events, in order. */
  function Values<V, E>(t: Trace<V, E>): (vs: seq<V>)
    ensures |vs| <= |t|
  {
    if |t| == 0 then []
    else (if t[0].Next? then [t[0].value] else []) + Values(t[1..])
  }

  /** The terminal events, in order (at most one in a well-formed trace). */
  function Terminations<V, E>(t: Trace<V, E>): (ts: seq<Termination<E>>)
    ensures |ts| <= |t|
  {
    if |t| == 0 then []
    else
      (match t[0]
       case Next(_) => []
       case Error(e) => [Errored(e)]
       case Complete => [Completed])
      + Terminations(t[1..])
  }

  /** A trace that only delivers the given values; the right inverse of `Values`. */
  function Nexts<V, E>(vs: seq<V>): (t: Trace<V, E>)
    ensures |t| == |vs|
    ensures Values(t) == vs
    ensures Terminations(t) == []
    ensures WellFormed(t)
  {
    if |vs| == 0 then [] else [Next(vs[0])] + Nexts(vs[1..])
  }

  /** The values of two traces one after the other are the values of each, in turn. */
  lemma {:induction false} ValuesAppend<V, E>(a: Trace<V, E>, b: Trace<V, E>)
    ensures Values(a + b) == Values(a) + Values(b)
    decreases |a|
  {
    if |a| > 0 {
      assert (a + b)[1..] == a[1..] + b;
      ValuesAppend(a[1..], b);
    } else {
      assert a + b == b;
    }
  }

  /** The terminations of two traces one after the other are those of each, in turn. */
  lemma {:induction false} TerminationsAppend<V, E>(a: Trace<V, E>, b: Trace<V, E>)
    ensures Terminations(a + b) == Terminations(a) + Terminations(b)
    decreases |a|
  {
    if |a| > 0 {
      assert (a + b)[1..] == a[1..] + b;
      TerminationsAppend(a[1..], b);
    } else {
      assert a + b == b;
    }
  }

  /** Delivering two lists of values is delivering one after the other. */
  lemma {:induction false} NextsAppend<V, E>(a: seq<V>, b: seq<V>)
    ensures Nexts<V, E>(a + b) == Nexts<V, E>(a) + Nexts<V, E>(b)
    decreases |a|
  {
    if |a| > 0 {
      assert (a + b)[1..] == a[1..] + b;
      NextsAppend<V, E>(a[1..], b);
    } else {
      assert a + b == b;
    }
  }

  /** Dropping the first event of a protocol-abiding trace keeps it
      protocol-abiding, and so does putting a `Next` in front of one. */
  lemma WellFormedTail<V, E>(t: Trace<V, E>)
    requires WellFormed(t) && |t| > 0
    ensures WellFormed(t[1..])
    ensures !t[0].Next? ==> |t| == 1
  {
    forall i | 0 <= i < |t[1..]| - 1
      ensures t[1..][i].Next?
    {
      assert t[1..][i] == t[i + 1];
    }
  }

  /** A `Next` in front of a protocol-abiding trace keeps it protocol-abiding. */
  lemma WellFormedCons<V, E>(x: Event<V, E>, t: Trace<V, E>)
    requires x.Next? && WellFormed(t)
    ensures WellFormed([x] + t)
  {
    forall i | 0 <= i < |[x] + t| - 1
      ensures ([x] + t)[i].Next?
    {
      if i > 0 {
        assert ([x] + t)[i] == t[i - 1];
      }
    }
  }

  /** A well-formed trace is its values followed by at most one terminal
      event: `Values` and `Terminations` together describe it completely. */
  lemma {:induction false} WellFormedShape<V, E>(t: Trace<V, E>)
    requires WellFormed(t)
    ensures |Terminations(t)| <= 1
    ensures Terminations(t) == [] ==> t == Nexts(Values(t))
    ensures Terminations(t) == [Completed] ==> t == Nexts(Values(t)) + [Complete]
    ensures |Terminations(t)| == 1 && Terminations(t)[0].Errored? ==>
              t == Nexts(Values(t)) + [Error(Terminations(t)[0].error)]
    decreases |t|
  {
    if |t| > 0 {
      WellFormedTail(t);
      WellFormedShape(t[1..]);
      if t[0].Next? {
        assert Values(t) == [t[0].value] + Values(t[1..]);
        assert Nexts<V, E>(Values(t))[1..] == Nexts(Values(t[1..]));
      } else {
        assert t[1..] == [];
      }
    }
  }

  /** Two protocol-abiding traces with the same values and the same
      termination are the same trace. */
  lemma SameShapeSameTrace<V, E>(a: Trace<V, E>, b: Trace<V, E>)
    requires WellFormed(a) && WellFormed(b)
    requires Values(a) == Values(b) && Terminations(a) == Terminations(b)
    ensures a == b
  {
    WellFormedShape(a);
    WellFormedShape(b);
  }

  /** On a well-formed trace, ending with `complete` or `error` is exactly
      having that termination. */
  lemma WellFormedEnding<V, E>(t: Trace<V, E>)
    requires WellFormed(t)
    ensures Completes(t) <==> Terminations(t) == [Completed]
    ensures Fails(t) <==> |Terminations(t)| == 1 && Terminations(t)[0].Errored?
  {
    WellFormedShape(t);
    var vs := Nexts<V, E>(Values(t));
    if |Terminations(t)| == 0 {
      assert |t| > 0 ==> t[|t| - 1] == vs[|vs| - 1];
    }
  }
}

=== FILE: observable.dfy ===
/** The single-source operators of class Observable: `of`, `map` and `filter`.

    One subscription is described by an `Execution`: the events delivered to
    the subscriber and the subscription handle `subscribe` returned.
 */
module Observable {
  import opened Events

  /** The handle `subscribe` returns. `Inert` is a handle whose `unsubscribe`
      does nothing; `Handle` stands for the teardown of some other execution. */
  datatype Subscription = Inert | Handle(id: nat)

  /** The outcome of one `subscribe` call. */
  datatype Execution<V, E> = Execution(events: Trace<V, E>, subscription: Subscription)

  /** `Observable.of(value)`: deliver `value`, then complete, both before
      `subscribe` returns; the returned handle does nothing. */
  function Of<V, E>(value: V): (r: Execution<V, E>)
    ensures WellFormed(r.events)
    ensures Values(r.events) == [value]
    ensures Terminations(r.events) == [Completed]
    ensures r.subscription == Inert
  {
    Execution([Next(value), Complete], Inert)
  }

  /** Reference semantics of a projection over a list of values. */
  function Project<V, W>(vs: seq<V>, f: V -> W): (ws: seq<W>)
    ensures |ws| == |vs|
    ensures forall i :: 0 <= i < |vs| ==> ws[i] == f(vs[i])
  {
    if |vs| == 0 then [] else [f(vs[0])] + Project(vs[1..], f)
  }

  /** Reference semantics of a selection over a list of values. */
  function Keep<V>(vs: seq<V>, p: V -> bool): (ks: seq<V>)
    ensures |ks| <= |vs|
    ensures forall i :: 0 <= i < |ks| ==> p(ks[i])
    ensures forall i :: 0 <= i < |ks| ==> ks[i] in vs
    ensures forall i :: 0 <= i < |vs| && p(vs[i]) ==> vs[i] in ks
  {
    if |vs| == 0 then []
    else (if p(vs[0]) then [vs[0]] else []) + Keep(vs[1..], p)
  }

  /** Selection distributes over concatenation, so it keeps the relative
      order of the values it keeps. */
  lemma {:induction false} KeepAppend<V>(a: seq<V>, b: seq<V>, p: V -> bool)
    ensures Keep(a + b, p) == Keep(a, p) + Keep(b, p)
    decreases |a|
  {
    if |a| > 0 {
      assert (a + b)[1..] == a[1..] + b;
      KeepAppend(a[1..], b, p);
    } else {
      assert a + b == b;
    }
  }

  /** The derived observer of `map`, applied to every event of the upstream
      trace: `next(v)` becomes `next(projection(v))`, `error` and `complete`
      are forwarded as they are. */
  function MapEvents<V, W, E>(t: Trace<V, E>, f: V -> W): (r: Trace<W, E>)
    ensures |r| == |t|
    ensures forall i :: 0 <= i < |t| ==> (r[i].Next? <==> t[i].Next?)
    ensures Values(r) == Project(Values(t), f)
    ensures Terminations(r) == Terminations(t)
    ensures WellFormed(t) ==> WellFormed(r)
  {
    if |t| == 0 then []
    else
      var head: Event<W, E> :=
        match t[0]
        case Next(v) => Next(f(v))
        case Error(e) => Error(e)
        case Complete => Complete;
      var tail := MapEvents(t[1..], f);
      assert t[0].Next? ==> Project(Values(t), f) == [f(t[0].value)] + Project(Values(t[1..]), f) by {
        if t[0].Next? {
          assert Values(t) == [t[0].value] + Values(t[1..]);
          assert Values(t)[1..] == Values(t[1..]);
        }
      }
      assert WellFormed(t) ==> WellFormed([head] + tail) by {
        if WellFormed(t) {
          WellFormedTail(t);
          if head.Next? { WellFormedCons(head, tail); }
        }
      }
      [head] + tail
  }

  /** `observable.map(projection)`: every event mapped by the derived
      observer, and the upstream subscription returned unchanged. */
  function Map<V, W, E>(up: Execution<V, E>, f: V -> W): (r: Execution<W, E>)
    ensures r.subscription == up.subscription
    ensures Values(r.events) == Project(Values(up.events), f)
    ensures Terminations(r.events) == Terminations(up.events)
    ensures WellFormed(up.events) ==> WellFormed(r.events)
  {
    Execution(MapEvents(up.events, f), up.subscription)
  }

  /** The derived observer of `filter`: `next(v)` is forwarded only when
      `predicate(v)` holds; `error` and `complete` are forwarded as they are. */
  function FilterEvents<V, E>(t: Trace<V, E>, p: V -> bool): (r: Trace<V, E>)
    ensures |r| <= |t|
    ensures Values(r) == Keep(Values(t), p)
    ensures Terminations(r) == Terminations(t)
    ensures WellFormed(t) ==> WellFormed(r)
  {
    if |t| == 0 then []
    else if t[0].Next? && !p(t[0].value) then
      assert Keep(Values(t), p) == Keep(Values(t[1..]), p) by {
        assert Values(t) == [t[0].value] + Values(t[1..]);
        assert Values(t)[1..] == Values(t[1..]);
      }
      assert WellFormed(t) ==> WellFormed(t[1..]) by {
        if WellFormed(t) { WellFormedTail(t); }
      }
      FilterEvents(t[1..], p)
    else
      var tail := FilterEvents(t[1..], p);
      assert Values([t[0]] + tail) == Keep(Values(t), p) by {
        assert ([t[0]] + tail)[1..] == tail;
        if t[0].Next? {
          var vs := Values(t);
          assert vs == [t[0].value] + Values(t[1..]);
          assert vs[0] == t[0].value && p(vs[0]);
          assert vs[1..] == Values(t[1..]);
          assert Keep(vs, p) == [vs[0]] + Keep(vs[1..], p);
          assert Values([t[0]] + tail) == [t[0].value] + Values(tail);
        } else {
          assert Values(t) == Values(t[1..]);
          assert Values([t[0]] + tail) == Values(tail);
        }
      }
      assert Terminations([t[0]] + tail) == Terminations(t) by {
        assert ([t[0]] + tail)[1..] == tail;
      }
      assert WellFormed(t) ==> WellFormed(t[1..]) && (!t[0].Next? ==> |t| == 1) by {
        if WellFormed(t) { WellFormedTail(t); }
      }
      assert WellFormed(t) && t[0].Next? ==> WellFormed([t[0]] + tail) by {
        if WellFormed(t) && t[0].Next? { WellFormedCons(t[0], tail); }
      }
      [t[0]] + tail
  }

  /** `observable.filter(predicate)`: the selected events, and the upstream
      subscription returned unchanged. */
  function Filter<V, E>(up: Execution<V, E>, p: V -> bool): (r: Execution<V, E>)
    ensures r.subscription == up.subscription
    ensures Values(r.events) == Keep(Values(up.events), p)
    ensures Terminations(r.events) == Terminations(up.events)
    ensures WellFormed(up.events) ==> WellFormed(r.events)
  {
    Execution(FilterEvents(up.events, p), up.subscription)
  }

  /** Mapping twice is mapping once by the composed projection. */
  lemma {:induction false} MapFusion<U, V, W, E>(t: Trace<U, E>, f: U -> V, g: V -> W)
    ensures MapEvents(MapEvents(t, f), g) == MapEvents(t, x => g(f(x)))
    decreases |t|
  {
    if |t| > 0 {
      assert MapEvents(t, f)[1..] == MapEvents(t[1..], f);
      MapFusion(t[1..], f, g);
    }
  }

  /** Filtering twice is filtering once by the conjunction of the predicates. */
  lemma {:induction false} FilterFusion<V, E>(t: Trace<V, E>, p: V -> bool, q: V -> bool)
    ensures FilterEvents(FilterEvents(t, p), q) == FilterEvents(t, x => p(x) && q(x))
    decreases |t|
  {
    if |t| > 0 {
      FilterFusion(t[1..], p, q);
      var head: Trace<V, E> := if t[0].Next? && !p(t[0].value) then [] else [t[0]];
      assert FilterEvents(t, p) == head + FilterEvents(t[1..], p);
      FilterAppend(head, FilterEvents(t[1..], p), q);
    }
  }

  /** The derived observer of `filter` handles each event on its own. */
  lemma {:induction false} FilterAppend<V, E>(a: Trace<V, E>, b: Trace<V, E>, p: V -> bool)
    ensures FilterEvents(a + b, p) == FilterEvents(a, p) + FilterEvents(b, p)
    decreases |a|
  {
    if |a| > 0 {
      assert (a + b)[1..] == a[1..] + b;
      FilterAppend(a[1..], b, p);
    } else {
      assert a + b == b;
    }
  }

  /** A predicate that holds of every value lets the whole trace through. */
  lemma {:induction false} FilterKeepsAll<V, E>(t: Trace<V, E>, p: V -> bool)
    requires forall v :: p(v)
    ensures FilterEvents(t, p) == t
    decreases |t|
  {
    if |t| > 0 {
      FilterKeepsAll(t[1..], p);
    }
  }

  /** The projection `x => x * 2` of the example below. */
  function Double(x: int): (r: int) { x * 2 }

  /** The predicate `x => x > 4` of the example below. */
  predicate AboveFour(x: int) { x > 4 }

  /** The example's source: values 1 to 4, then `complete`. */
  lemma ExampleSource(src: Execution<int, string>)
    requires src == Execution([Next(1), Next(2), Next(3), Next(4), Complete], Inert)
    ensures WellFormed(src.events)
    ensures Values(src.events) == [1, 2, 3, 4]
    ensures Terminations(src.events) == [Completed]
  {
    var t := src.events;
    assert t[1..][1..][1..][1..][1..] == [];
  }

  /** The expected output: values 6 and 8, then `complete`. */
  lemma ExampleOutput(out: Trace<int, string>)
    requires out == [Next(6), Next(8), Complete]
    ensures WellFormed(out)
    ensures Values(out) == [6, 8]
    ensures Terminations(out) == [Completed]
  {
    var last: Trace<int, string> := [Complete];
    assert last[1..] == [];
    assert Values(last) == [] && Terminations(last) == [Completed];
    assert out[1..] == [Next(8)] + last && out[1..][1..] == last;
    assert Values(out[1..]) == [8] && Terminations(out[1..]) == [Completed];
  }

  /** Doubling 1 to 4 and keeping what is above four leaves 6 and 8. */
  lemma ExampleValues()
    ensures Keep(Project([1, 2, 3, 4], Double), AboveFour) == [6, 8]
  {
    var doubled := Project([1, 2, 3, 4], Double);
    assert doubled == [2, 4] + [6, 8] by {
      assert |doubled| == 4;
      assert doubled[0] == 2 && doubled[1] == 4 && doubled[2] == 6 && doubled[3] == 8;
    }
    assert Keep([6, 8], AboveFour) == [6, 8] by {
      assert [6, 8][1..] == [8];
      assert Keep([8], AboveFour) == [8];
    }
    assert Keep([2, 4], AboveFour) == [] by {
      assert [2, 4][1..] == [4];
      assert Keep([4], AboveFour) == [];
    }
    KeepAppend([2, 4], [6, 8], AboveFour);
  }

  /** `map(x => x * 2).filter(x => x > 4)` over a source emitting 1, 2, 3, 4
      and completing emits 6 and 8, then completes, and nothing else. */
  lemma MapFilterExample()
    ensures var src: Execution<int, string> := Execution([Next(1), Next(2), Next(3), Next(4), Complete], Inert);
            var out := Filter(Map(src, Double), AboveFour);
            && Values(out.events) == [6, 8]
            && Terminations(out.events) == [Completed]
            && out.events == [Next(6), Next(8), Complete]
  {
    var src: Execution<int, string> := Execution([Next(1), Next(2), Next(3), Next(4), Complete], Inert);
    var out := Filter(Map(src, Double), AboveFour);
    ExampleSource(src);
    ExampleValues();
    ExampleOutput([Next(6), Next(8), Complete]);
    SameShapeSameTrace(out.events, [Next(6), Next(8), Complete]);
  }
}

=== FILE: retry.dfy ===
/** `observable.retry(n)`: subscribe to the source; on `error`, while the
    attempt counter (starting at `n`) is not zero, subscribe again with the
    counter decreased by one.

    The source is cold, so each subscription is a fresh execution that may
    behave differently: it is described by `source(k)`, the trace delivered
    to the `k`-th attempt (counting from 0).
 */
module Retry {
  import opened Events

  type Source<V, E> = nat -> Trace<V, E>

  /** Every execution of the source obeys the observable protocol. */
  ghost predicate Obeys<V, E>(source: Source<V, E>) {
    forall k: nat :: WellFormed(source(k))
  }

  /** The values of the `count` attempts starting with attempt `from`. */
  function ValuesOfAttempts<V, E>(source: Source<V, E>, from: nat, count: nat): (vs: seq<V>)
    decreases count
  {
    if count == 0 then [] else Values(source(from)) + ValuesOfAttempts(source, from + 1, count - 1)
  }

  /** `retry(n)` subscribed once. */
  function Retry<V, E>(source: Source<V, E>, n: nat): (r: Run<V, E>)
    requires Obeys(source)
    ensures WellFormed(r.events)
    ensures 1 <= r.subscriptions <= n + 1
  {
    Attempt(source, 0, n)
  }

  /** `processRequest(counter)` for attempt number `attempt`: subscribe to the
      source and relay what it delivers. */
  function Attempt<V, E>(source: Source<V, E>, attempt: nat, counter: nat): (r: Run<V, E>)
    requires Obeys(source)
    ensures WellFormed(r.events)
    ensures 1 <= r.subscriptions <= counter + 1
    decreases counter, 1, 0
  {
    var inner := Relay(source, attempt, counter, source(attempt));
    Run(inner.events, inner.subscriptions + 1)
  }

  /** The inner observer of one attempt, fed with that attempt's remaining
      trace `t`: `next` and `complete` are forwarded; `error` is forwarded
      when the counter is zero and otherwise starts the next attempt with the
      counter decreased. The count is the number of later attempts. */
  function Relay<V, E>(source: Source<V, E>, attempt: nat, counter: nat, t: Trace<V, E>): (r: Run<V, E>)
    requires Obeys(source) && WellFormed(t)
    ensures WellFormed(r.events)
    ensures r.subscriptions <= counter
    decreases counter, 0, |t|
  {
    if |t| == 0 then Run([], 0)
    else
      WellFormedTail(t);
      match t[0]
      case Next(v) =>
        var r := Relay(source, attempt, counter, t[1..]);
        WellFormedCons(t[0], r.events);
        Run([t[0]] + r.events, r.subscriptions)
      case Complete => Run([t[0]], 0)
      case Error(e) =>
        if counter == 0 then Run([t[0]], 0)
        else Attempt(source, attempt + 1, counter - 1)
  }

  /** A failing attempt with attempts left contributes its values and hands
      over to the next attempt. */
  lemma {:induction false} RelayRetries<V, E>(source: Source<V, E>, attempt: nat, counter: nat, t: Trace<V, E>)
    requires Obeys(source) && WellFormed(t)
    requires Fails(t) && counter > 0
    ensures Relay(source, attempt, counter, t).events
            == Nexts(Values(t)) + Attempt(source, attempt + 1, counter - 1).events
    ensures Relay(source, attempt, counter, t).subscriptions
            == Attempt(source, attempt + 1, counter - 1).subscriptions
    decreases |t|
  {
    WellFormedTail(t);
    if t[0].Next? {
      assert t[|t| - 1] == t[1..][|t[1..]| - 1];
      RelayRetries(source, attempt, counter, t[1..]);
      var vs := Values(t);
      assert vs == [t[0].value] + Values(t[1..]);
      assert Nexts<V, E>(vs) == [t[0]] + Nexts(Values(t[1..])) by {
        assert vs[1..] == Values(t[1..]);
      }
    } else {
      assert t == [t[0]];
      assert Values(t) == [];
    }
  }

  /** An attempt that succeeds, never terminates, or fails with no attempts
      left is relayed verbatim and is the last one. */
  lemma {:induction false} RelayEnds<V, E>(source: Source<V, E>, attempt: nat, counter: nat, t: Trace<V, E>)
    requires Obeys(source) && WellFormed(t)
    requires !Fails(t) || counter == 0
    ensures Relay(source, attempt, counter, t) == Run(t, 0)
    decreases |t|
  {
    if |t| > 0 {
      WellFormedTail(t);
      if t[0].Next? {
        assert |t| > 1 ==> t[|t| - 1] == t[1..][|t[1..]| - 1];
        RelayEnds(source, attempt, counter, t[1..]);
        assert t == [t[0]] + t[1..];
      } else {
        assert t == [t[0]];
      }
    }
  }

  /** How a run of `retry` that started at attempt `a` with the counter at
      `c` is made of its attempts: it made `m` attempts; every attempt but
      the last failed; the last one is the first that did not fail, or the
      one made with the counter at zero; and the output is the values of the
      failed attempts followed by the last attempt's own trace. */
  ghost predicate RunOfAttempts<V, E>(source: Source<V, E>, a: nat, c: nat, r: Run<V, E>) {
    var m := r.subscriptions;
    && 1 <= m <= c + 1
    && (forall i :: a <= i < a + m - 1 ==> Fails(source(i)))
    && (m == c + 1 || !Fails(source(a + m - 1)))
    && r.events == Nexts(ValuesOfAttempts(source, a, m - 1)) + source(a + m - 1)
  }

  /** The values of a failed attempt in front of the output of the later
      attempts are the values of one more attempt. */
  lemma PrependFailed<V, E>(source: Source<V, E>, a: nat, m: nat, later: Trace<V, E>)
    requires later == Nexts(ValuesOfAttempts(source, a + 1, m)) + source(a + 1 + m)
    ensures Nexts(Values(source(a))) + later == Nexts(ValuesOfAttempts(source, a, m + 1)) + source(a + 1 + m)
  {
    assert ValuesOfAttempts(source, a, m + 1) == Values(source(a)) + ValuesOfAttempts(source, a + 1, m);
    NextsAppend<V, E>(Values(source(a)), ValuesOfAttempts(source, a + 1, m));
  }

  /** One failed attempt in front of a run of attempts is again a run of
      attempts. */
  lemma RunOfAttemptsStep<V, E>(source: Source<V, E>, a: nat, c: nat, next: Run<V, E>, r: Run<V, E>)
    requires Fails(source(a)) && c > 0
    requires RunOfAttempts(source, a + 1, c - 1, next)
    requires r == Run(Nexts(Values(source(a))) + next.events, next.subscriptions + 1)
    ensures RunOfAttempts(source, a, c, r)
  {
    var m := next.subscriptions;
    PrependFailed(source, a, m - 1, next.events);
    assert a + r.subscriptions - 1 == a + 1 + (m - 1);
  }

  /** An attempt relayed verbatim is a run of one attempt. */
  lemma RunOfAttemptsLast<V, E>(source: Source<V, E>, a: nat, c: nat, r: Run<V, E>)
    requires !Fails(source(a)) || c == 0
    requires r == Run(source(a), 1)
    ensures RunOfAttempts(source, a, c, r)
  {
    assert ValuesOfAttempts(source, a, 0) == [];
    assert r.events == Nexts<V, E>(ValuesOfAttempts(source, a, 0)) + source(a);
  }

  /** Every run of `processRequest` is a run of attempts in the sense of `RunOfAttempts`. */
  lemma {:induction false} AttemptTrace<V, E>(source: Source<V, E>, a: nat, c: nat)
    requires Obeys(source)
    ensures RunOfAttempts(source, a, c, Attempt(source, a, c))
    decreases c
  {
    var t := source(a);
    if Fails(t) && c > 0 {
      RelayRetries(source, a, c, t);
      AttemptTrace(source, a + 1, c - 1);
      RunOfAttemptsStep(source, a, c, Attempt(source, a + 1, c - 1), Attempt(source, a, c));
    } else {
      RelayEnds(source, a, c, t);
      RunOfAttemptsLast(source, a, c, Attempt(source, a, c));
    }
  }

  /** The output of `retry(n)`: the values of every attempt, failed ones
      included, in order, ended by the last attempt's terminal event; the
      attempts stop at the first one that does not fail, and at most `n + 1`
      are made. */
  lemma RetryTrace<V, E>(source: Source<V, E>, n: nat)
    requires Obeys(source)
    ensures var r := Retry(source, n);
            var m := r.subscriptions;
            && 1 <= m <= n + 1
            && (forall i :: 0 <= i < m - 1 ==> Fails(source(i)))
            && (m == n + 1 || !Fails(source(m - 1)))
            && Values(r.events) == ValuesOfAttempts(source, 0, m)
            && Terminations(r.events) == Terminations(source(m - 1))
  {
    AttemptTrace(source, 0, n);
    var m := Retry(source, n).subscriptions;
    ValuesAppend(Nexts<V, E>(ValuesOfAttempts(source, 0, m - 1)), source(m - 1));
    TerminationsAppend(Nexts<V, E>(ValuesOfAttempts(source, 0, m - 1)), source(m - 1));
    ValuesOfAttemptsSnoc(source, 0, m - 1);
  }

  /** The values of `count + 1` attempts are those of the first `count`, then those of the next one. */
  lemma {:induction false} ValuesOfAttemptsSnoc<V, E>(source: Source<V, E>, from: nat, count: nat)
    ensures ValuesOfAttempts(source, from, count + 1)
            == ValuesOfAttempts(source, from, count) + Values(source(from + count))
    decreases count
  {
    if count > 0 {
      ValuesOfAttemptsSnoc(source, from + 1, count - 1);
      assert from + 1 + (count - 1) == from + count;
      assert ValuesOfAttempts(source, from, count + 1)
             == Values(source(from)) + ValuesOfAttempts(source, from + 1, count);
      assert ValuesOfAttempts(source, from, count)
             == Values(source(from)) + ValuesOfAttempts(source, from + 1, count - 1);
    } else {
      assert ValuesOfAttempts(source, from, 1) == Values(source(from)) + [];
    }
  }

  /** A source that always fails: exactly one outer error, after exactly
      `n + 1` attempts, and it is the last attempt's own error. */
  lemma RetryAlwaysFails<V, E>(source: Source<V, E>, n: nat)
    requires Obeys(source)
    requires forall k: nat :: Fails(source(k))
    ensures Retry(source, n).subscriptions == n + 1
    ensures Terminations(Retry(source, n).events) == Terminations(source(n))
    ensures |Terminations(Retry(source, n).events)| == 1
    ensures Fails(Retry(source, n).events)
  {
    RetryTrace(source, n);
    WellFormedEnding(source(n));
    WellFormedEnding(Retry(source, n).events);
  }

  /** A source that fails on the first `k` attempts and then completes, with
      `k <= n`: the run completes once, after exactly `k + 1` attempts. */
  lemma RetryRecovers<V, E>(source: Source<V, E>, n: nat, k: nat)
    requires Obeys(source)
    requires k <= n
    requires forall i :: 0 <= i < k ==> Fails(source(i))
    requires Completes(source(k))
    ensures Retry(source, n).subscriptions == k + 1
    ensures Terminations(Retry(source, n).events) == [Completed]
    ensures Values(Retry(source, n).events) == ValuesOfAttempts(source, 0, k + 1)
  {
    RetryTrace(source, n);
    WellFormedEnding(source(k));
  }

  /** `retry(0)` is the source itself. */
  lemma RetryZero<V, E>(source: Source<V, E>)
    requires Obeys(source)
    ensures Retry(source, 0) == Run(source(0), 1)
  {
    AttemptTrace(source, 0, 0);
  }

  /** How many attempts `retry` makes against a source that fails every
      time, with the guard as written (`currentAttemptNumber === 0`) and the
      count being any integer. Only the first `bound` attempts are looked
      at, since the count may never reach zero. */
  function FailingAttemptsAsWritten(counter: int, bound: nat): (m: nat)
    ensures m <= bound
    decreases bound
  {
    if bound == 0 then 0
    else if counter == 0 then 1
    else 1 + FailingAttemptsAsWritten(counter - 1, bound - 1)
  }

  /** `retry(-1)` never stops: whatever bound is looked at, every attempt
      up to it is made. */
  lemma {:induction false} NegativeCountRetriesForever(counter: int, bound: nat)
    requires counter < 0
    ensures FailingAttemptsAsWritten(counter, bound) == bound
    decreases bound
  {
    if bound > 0 {
      NegativeCountRetriesForever(counter - 1, bound - 1);
    }
  }

  /** The same count with the guard `counter <= 0`: a count below one
      means no retry. */
  function FailingAttempts(counter: int, bound: nat): (m: nat)
    ensures m <= bound
    decreases bound
  {
    if bound == 0 then 0
    else if counter <= 0 then 1
    else 1 + FailingAttempts(counter - 1, bound - 1)
  }

  /** With the corrected guard every count stops: after `counter + 1`
      attempts, or after one when the count is below one. */
  lemma {:induction false} FailingAttemptsStop(counter: int, bound: nat)
    requires bound > counter && bound > 0
    ensures FailingAttempts(counter, bound) == (if counter <= 0 then 1 else counter + 1)
    decreases bound
  {
    if counter > 0 {
      FailingAttemptsStop(counter - 1, bound - 1);
    }
  }

  /** On the counts `Retry` accepts the two guards agree, and `Retry`
      against an always failing source makes exactly the attempts the
      corrected guard allows. */
  lemma RetryUsesCorrectedGuard<V, E>(source: Source<V, E>, n: nat, bound: nat)
    requires Obeys(source)
    requires forall k: nat :: Fails(source(k))
    requires bound > n
    ensures FailingAttemptsAsWritten(n, bound) == FailingAttempts(n, bound)
    ensures Retry(source, n).subscriptions == FailingAttempts(n, bound)
  {
    GuardsAgree(n, bound);
    FailingAttemptsStop(n, bound);
    RetryAlwaysFails(source, n);
  }

  /** On counts that are not negative the guards `== 0` and `<= 0` make the same attempts. */
  lemma {:induction false} GuardsAgree(counter: nat, bound: nat)
    ensures FailingAttemptsAsWritten(counter, bound) == FailingAttempts(counter, bound)
    decreases bound
  {
    if bound > 0 && counter > 0 {
      GuardsAgree(counter - 1, bound - 1);
    }
  }
}

=== FILE: share.dfy ===
/** `observable.share()`: create a Subject, subscribe it once to the source,
    and hand out the Subject.

    From then on two things interleave: the source's single execution
    delivering its next event to the Subject (which broadcasts it), and
    outside code subscribing observers to the Subject or unsubscribing them.
    A schedule fixes that interleaving; when the source is synchronous the
    whole trace is delivered before `share()` returns, i.e. the schedule
    starts with all its `Emit` steps.
 */
module Share {
  import opened Events
  import opened Subject

  datatype Step = Emit | External(action: Action)

  /** The shared execution: the source's trace and how much of it has been
      delivered, the Subject, and every call made on an observer so far. */
  datatype Hot<V, E> = Hot(source: Trace<V, E>, emitted: nat, subject: Subject, log: seq<Delivery<V, E>>)

  /** The cursor stays within the source trace and the Subject stays duplicate-free. */
  predicate Consistent<V, E>(h: Hot<V, E>) {
    h.emitted <= |h.source| && Valid(h.subject)
  }

  /** Observers of a shared execution do nothing to the Subject when notified. */
  function Silent<V, E>(o: ObserverId, e: Event<V, E>): (acts: seq<Action>) {
    []
  }

  /** The events delivered to observer `o`, in order. */
  function Received<V, E>(log: seq<Delivery<V, E>>, o: ObserverId): (t: Trace<V, E>) {
    if |log| == 0 then []
    else (if log[0].observer == o then [log[0].event] else []) + Received(log[1..], o)
  }

  /** What an observer received over two stretches of the log is what it received in each, in turn. */
  lemma {:induction false} ReceivedAppend<V, E>(a: seq<Delivery<V, E>>, b: seq<Delivery<V, E>>, o: ObserverId)
    ensures Received(a + b, o) == Received(a, o) + Received(b, o)
    decreases |a|
  {
    if |a| > 0 {
      assert (a + b)[1..] == a[1..] + b;
      ReceivedAppend(a[1..], b, o);
    } else {
      assert a + b == b;
    }
  }

  /** A broadcast over distinct observers gives each of them the event once. */
  lemma {:induction false} ReceivedOfBroadcast<V, E>(ds: seq<Delivery<V, E>>, ev: Event<V, E>, o: ObserverId)
    requires NoDuplicates(Recipients(ds))
    requires forall i :: 0 <= i < |ds| ==> ds[i].event == ev
    ensures Received(ds, o) == if o in Recipients(ds) then [ev] else []
    decreases |ds|
  {
    if |ds| > 0 {
      var os := Recipients(ds);
      assert Recipients(ds[1..]) == os[1..];
      assert NoDuplicates(os[1..]) by {
        forall i, j | 0 <= i < j < |os[1..]| ensures os[1..][i] != os[1..][j] {
          assert os[1..][i] == os[i + 1] && os[1..][j] == os[j + 1];
        }
      }
      assert os[0] !in os[1..] by {
        forall i | 0 <= i < |os[1..]| ensures os[1..][i] != os[0] {
          assert os[1..][i] == os[i + 1];
        }
      }
      ReceivedOfBroadcast(ds[1..], ev, o);
      assert os == [os[0]] + os[1..];
    }
  }

  /** Nothing reacting, a broadcast leaves the Subject as it was. */
  lemma {:induction false} SilentVisitKeepsSubject<V, E>(snapshot: seq<ObserverId>, s: Subject, ev: Event<V, E>)
    ensures Visit(snapshot, s, ev, Silent).subject == s
    decreases |snapshot|
  {
    if |snapshot| > 0 {
      assert PerformAll(s, Silent(snapshot[0], ev)) == s;
      SilentVisitKeepsSubject(snapshot[1..], s, ev);
    }
  }

  /** One step of the shared execution. */
  function Advance<V, E>(h: Hot<V, E>, step: Step): (r: Hot<V, E>)
    ensures r.source == h.source
    ensures h.emitted <= r.emitted <= h.emitted + 1
    ensures Consistent(h) ==> Consistent(r)
  {
    match step
    case Emit =>
      if h.emitted < |h.source| then
        var b := Broadcast(h.subject, h.source[h.emitted], Silent);
        Hot(h.source, h.emitted + 1, b.subject, h.log + b.deliveries)
      else h
    case External(a) => Hot(h.source, h.emitted, Perform(h.subject, a), h.log)
  }

  /** A whole schedule of steps. */
  function Play<V, E>(h: Hot<V, E>, schedule: seq<Step>): (r: Hot<V, E>)
    ensures r.source == h.source
    ensures h.emitted <= r.emitted
    ensures Consistent(h) ==> Consistent(r)
    decreases |schedule|
  {
    if |schedule| == 0 then h else Play(Advance(h, schedule[0]), schedule[1..])
  }

  /** `xs` is `ys` with some elements left out: the same elements in the
      same order, each used at most once. */
  ghost predicate IsSubsequence<T>(xs: seq<T>, ys: seq<T>)
    decreases |ys|
  {
    if |ys| == 0 then |xs| == 0
    else IsSubsequence(xs, ys[..|ys| - 1])
         || (|xs| > 0 && xs[|xs| - 1] == ys[|ys| - 1] && IsSubsequence(xs[..|xs| - 1], ys[..|ys| - 1]))
  }

  /** A subsequence stays one when the longer sequence grows. */
  lemma SubsequenceSkip<T>(xs: seq<T>, ys: seq<T>, y: T)
    requires IsSubsequence(xs, ys)
    ensures IsSubsequence(xs, ys + [y])
  {
    assert (ys + [y])[..|ys|] == ys;
  }

  /** A subsequence stays one when both sequences grow by the same element. */
  lemma SubsequenceTake<T>(xs: seq<T>, ys: seq<T>, y: T)
    requires IsSubsequence(xs, ys)
    ensures IsSubsequence(xs + [y], ys + [y])
  {
    assert (ys + [y])[..|ys|] == ys;
    assert (xs + [y])[..|xs|] == xs;
  }

  /** A subsequence is no longer than the sequence it is taken from, and
      each of its elements occurs there. */
  lemma {:induction false} SubsequenceMembers<T>(xs: seq<T>, ys: seq<T>)
    requires IsSubsequence(xs, ys)
    ensures |xs| <= |ys|
    ensures forall i :: 0 <= i < |xs| ==> xs[i] in ys
    decreases |ys|
  {
    if |ys| > 0 {
      var ys' := ys[..|ys| - 1];
      assert ys == ys' + [ys[|ys| - 1]];
      if IsSubsequence(xs, ys') {
        SubsequenceMembers(xs, ys');
      } else {
        var xs' := xs[..|xs| - 1];
        SubsequenceMembers(xs', ys');
        forall i | 0 <= i < |xs| ensures xs[i] in ys {
          if i < |xs| - 1 {
            assert xs[i] == xs'[i];
          }
        }
      }
    }
  }

  /** Every observer has received, in order, some of the events the source
      has delivered so far, none of them twice. */
  ghost predicate FromSource<V, E>(h: Hot<V, E>) {
    && Consistent(h)
    && forall o :: IsSubsequence(Received(h.log, o), h.source[..h.emitted])
  }

  /** One step keeps every observer's received events a subsequence of the delivered source events. */
  lemma AdvanceFromSource<V, E>(h: Hot<V, E>, step: Step)
    requires FromSource(h)
    ensures FromSource(Advance(h, step))
  {
    var h' := Advance(h, step);
    if step == Emit && h.emitted < |h.source| {
      var e := h.source[h.emitted];
      assert h'.source[..h'.emitted] == h.source[..h.emitted] + [e];
      forall o ensures IsSubsequence(Received(h'.log, o), h'.source[..h'.emitted]) {
        EmitDelivers(h, o);
        if o in Members(h.subject) {
          SubsequenceTake(Received(h.log, o), h.source[..h.emitted], e);
        } else {
          assert Received(h'.log, o) == Received(h.log, o);
          SubsequenceSkip(Received(h.log, o), h.source[..h.emitted], e);
        }
      }
    } else {
      assert h'.log == h.log && h'.emitted == h.emitted;
    }
  }

  /** A whole schedule keeps every observer's received events a subsequence of the delivered source events. */
  lemma {:induction false} PlayFromSource<V, E>(h: Hot<V, E>, schedule: seq<Step>)
    requires FromSource(h)
    ensures FromSource(Play(h, schedule))
    decreases |schedule|
  {
    if |schedule| > 0 {
      AdvanceFromSource(h, schedule[0]);
      PlayFromSource(Advance(h, schedule[0]), schedule[1..]);
    }
  }

  /** `share()` followed by the given schedule. The Subject is subscribed to
      the source once: every observer receives, in order, part of what one
      execution of the source has delivered, and no event twice. */
  function Share<V, E>(source: Trace<V, E>, schedule: seq<Step>): (h: Hot<V, E>)
    ensures h.source == source
    ensures h.emitted <= |source|
    ensures Valid(h.subject)
    ensures forall o :: IsSubsequence(Received(h.log, o), source[..h.emitted])
  {
    var start: Hot<V, E> := Hot(source, 0, Fresh, []);
    assert FromSource(start) by {
      assert Valid(Fresh);
      forall o ensures IsSubsequence(Received(start.log, o), source[..0]) {
        assert Received(start.log, o) == [];
      }
    }
    PlayFromSource(start, schedule);
    Play(start, schedule)
  }

  /** Playing two schedules one after the other is playing their concatenation. */
  lemma {:induction false} PlayAppend<V, E>(h: Hot<V, E>, a: seq<Step>, b: seq<Step>)
    ensures Play(h, a + b) == Play(Play(h, a), b)
    decreases |a|
  {
    if |a| > 0 {
      assert (a + b)[1..] == a[1..] + b;
      assert (a + b)[0] == a[0];
      PlayAppend(Advance(h, a[0]), a[1..], b);
    } else {
      assert a + b == b;
    }
  }

  /** What an `Emit` step delivers to one observer. */
  lemma EmitDelivers<V, E>(h: Hot<V, E>, o: ObserverId)
    requires Consistent(h) && h.emitted < |h.source|
    ensures Received(Advance(h, Emit).log, o)
            == Received(h.log, o) + (if o in Members(h.subject) then [h.source[h.emitted]] else [])
    ensures Advance(h, Emit).subject == h.subject
  {
    var b := Broadcast(h.subject, h.source[h.emitted], Silent);
    SilentVisitKeepsSubject(h.subject.observers, h.subject, h.source[h.emitted]);
    ReceivedAppend(h.log, b.deliveries, o);
    ReceivedOfBroadcast(b.deliveries, h.source[h.emitted], o);
  }

  /** One step that is not its own unsubscription keeps an observer
      subscribed, and it receives what the step delivers. */
  lemma StepKeepsObserver<V, E>(h: Hot<V, E>, step: Step, o: ObserverId)
    requires Consistent(h)
    requires o in Members(h.subject)
    requires step != External(Detach(o))
    ensures o in Members(Advance(h, step).subject)
    ensures Received(Advance(h, step).log, o)
            == Received(h.log, o) + h.source[h.emitted..Advance(h, step).emitted]
  {
    if step == Emit && h.emitted < |h.source| {
      EmitDelivers(h, o);
      assert h.source[h.emitted..h.emitted + 1] == [h.source[h.emitted]];
    } else {
      assert Advance(h, step).log == h.log;
    }
  }

  /** Adjacent slices of one sequence join up. */
  lemma SlicesJoin<T>(s: seq<T>, x: nat, y: nat, z: nat, prefix: seq<T>)
    requires x <= y <= z <= |s|
    ensures (prefix + s[x..y]) + s[y..z] == prefix + s[x..z]
  {
    assert s[x..z] == s[x..y] + s[y..z];
  }

  /** An observer that subscribed to the Subject and does not unsubscribe
      receives exactly the events the source delivers meanwhile, in order. */
  lemma {:induction false} SubscribedObserverReceives<V, E>(h: Hot<V, E>, schedule: seq<Step>, o: ObserverId)
    requires Consistent(h)
    requires o in Members(h.subject)
    requires forall i :: 0 <= i < |schedule| ==> schedule[i] != External(Detach(o))
    ensures Received(Play(h, schedule).log, o)
            == Received(h.log, o) + h.source[h.emitted..Play(h, schedule).emitted]
    ensures Play(h, schedule).emitted <= |h.source|
    decreases |schedule|
  {
    if |schedule| > 0 {
      var h' := Advance(h, schedule[0]);
      var later := schedule[1..];
      assert Play(h, schedule) == Play(h', later);
      StepKeepsObserver(h, schedule[0], o);
      assert forall i :: 0 <= i < |later| ==> later[i] != External(Detach(o)) by {
        forall i | 0 <= i < |later| ensures later[i] != External(Detach(o)) {
          assert later[i] == schedule[i + 1];
        }
      }
      SubscribedObserverReceives(h', later, o);
      SlicesJoin(h.source, h.emitted, h'.emitted, Play(h', later).emitted, Received(h.log, o));
    }
  }

  /** Once the source has delivered its whole trace, nobody receives
      anything any more: there is no replay of what was broadcast before. */
  lemma {:induction false} ExhaustedSourceIsSilent<V, E>(h: Hot<V, E>, schedule: seq<Step>)
    requires h.emitted == |h.source|
    ensures Play(h, schedule).log == h.log
    ensures Play(h, schedule).emitted == |h.source|
    decreases |schedule|
  {
    if |schedule| > 0 {
      ExhaustedSourceIsSilent(Advance(h, schedule[0]), schedule[1..]);
    }
  }

  /** An observer that has never subscribed receives nothing. */
  lemma {:induction false} AbsentObserverReceivesNothing<V, E>(h: Hot<V, E>, schedule: seq<Step>, o: ObserverId)
    requires Consistent(h)
    requires o !in Members(h.subject)
    requires forall i :: 0 <= i < |schedule| ==> schedule[i] != External(Attach(o))
    ensures Received(Play(h, schedule).log, o) == Received(h.log, o)
    ensures o !in Members(Play(h, schedule).subject)
    decreases |schedule|
  {
    if |schedule| > 0 {
      var h' := Advance(h, schedule[0]);
      if schedule[0] == Emit && h.emitted < |h.source| {
        EmitDelivers(h, o);
      }
      assert o !in Members(h'.subject);
      AbsentObserverReceivesNothing(h', schedule[1..], o);
    }
  }

  /** Two observers that subscribe before the source delivers anything and
      never unsubscribe receive the same events: what the single execution
      of the source delivered. */
  lemma ShareObserversAgree<V, E>(source: Trace<V, E>, a: ObserverId, b: ObserverId, rest: seq<Step>)
    requires forall i :: 0 <= i < |rest| ==> rest[i] != External(Detach(a)) && rest[i] != External(Detach(b))
    ensures var h := Share(source, [External(Attach(a)), External(Attach(b))] + rest);
            Received(h.log, a) == source[..h.emitted] && Received(h.log, b) == source[..h.emitted]
  {
    var start: Hot<V, E> := Hot(source, 0, Fresh, []);
    var attached := [External(Attach(a)), External(Attach(b))];
    PlayAppend(start, attached, rest);
    var mid := Play(start, attached);
    assert mid == Hot(source, 0, Subscribe(Subscribe(Fresh, a), b), []) by {
      var first := Advance(start, External(Attach(a)));
      assert attached[1..] == [External(Attach(b))];
      assert mid == Play(first, [External(Attach(b))]);
      assert [External(Attach(b))][1..] == [];
      assert Play(first, [External(Attach(b))])
             == Play(Advance(first, External(Attach(b))), []);
      assert mid == Advance(first, External(Attach(b)));
    }
    SubscribedObserverReceives(mid, rest, a);
    SubscribedObserverReceives(mid, rest, b);
  }

  /** An observer that subscribes only after the source has delivered its
      whole trace receives nothing at all: not even `complete`. */
  lemma ShareLateSubscriber<V, E>(source: Trace<V, E>, before: seq<Step>, after: seq<Step>, o: ObserverId)
    requires Share(source, before).emitted == |source|
    requires forall i :: 0 <= i < |before| ==> before[i] != External(Attach(o))
    ensures Received(Share(source, before + [External(Attach(o))] + after).log, o) == []
  {
    var start: Hot<V, E> := Hot(source, 0, Fresh, []);
    AbsentObserverReceivesNothing(start, before, o);
    PlayAppend(start, before, [External(Attach(o))] + after);
    assert before + [External(Attach(o))] + after == before + ([External(Attach(o))] + after);
    ExhaustedSourceIsSilent(Share(source, before), [External(Attach(o))] + after);
  }
}

=== FILE: subject.dfy ===
/** class Subject: a multicast hub whose only state is the set of observers
    currently subscribed.

    The JavaScript `Set` it uses iterates in insertion order and ignores the
    addition of an element already present, so the set is modelled as a
    sequence of observer identities without duplicates. Observers are known
    by identity only (`ObserverId`); what an observer does when called is
    described by a reaction function that tells which subscriptions it adds
    or removes while it is being notified.
 */
module Subject {
  import opened Events

  type ObserverId = nat

  datatype Subject = Subject(observers: seq<ObserverId>)

  /** No observer occurs twice. */
  predicate NoDuplicates(xs: seq<ObserverId>) {
    forall i, j :: 0 <= i < j < |xs| ==> xs[i] != xs[j]
  }

  /** The invariant the JavaScript `Set` keeps. */
  predicate Valid(s: Subject) {
    NoDuplicates(s.observers)
  }

  /** The observers currently in the set. */
  function Members(s: Subject): (members: set<ObserverId>) {
    set o | o in s.observers
  }

  /** `new Subject()`: no observer yet. */
  const Fresh: Subject := Subject([])

  /** `subject.subscribe(observer)`: add the observer to the set. The handle
      it returns is modelled by `Unsubscribe(_, observer)`. */
  function Subscribe(s: Subject, o: ObserverId): (r: Subject)
    ensures Members(r) == Members(s) + {o}
    ensures Valid(s) ==> Valid(r)
    ensures o in Members(s) ==> r == s
    ensures |s.observers| <= |r.observers| && r.observers[..|s.observers|] == s.observers
  {
    if o in s.observers then s else Subject(s.observers + [o])
  }

  /** `observers.delete(observer)` on an insertion-ordered sequence. */
  function Without(xs: seq<ObserverId>, o: ObserverId): (ys: seq<ObserverId>)
    ensures forall x :: x in ys <==> x in xs && x != o
    ensures |ys| <= |xs|
    ensures o !in xs ==> ys == xs
    ensures NoDuplicates(xs) ==> NoDuplicates(ys)
    ensures NoDuplicates(xs) && o in xs ==> |ys| == |xs| - 1
  {
    if |xs| == 0 then []
    else
      var rest := Without(xs[1..], o);
      assert xs == [xs[0]] + xs[1..];
      assert NoDuplicates(xs) ==> NoDuplicates(xs[1..]) && xs[0] !in xs[1..] by {
        if NoDuplicates(xs) {
          forall i | 0 <= i < |xs[1..]| ensures xs[1..][i] != xs[0] {
            assert xs[1..][i] == xs[i + 1];
          }
        }
      }
      if xs[0] == o then rest
      else
        assert NoDuplicates(xs) ==> NoDuplicates([xs[0]] + rest) by {
          if NoDuplicates(xs) {
            forall i, j | 0 <= i < j < |[xs[0]] + rest|
              ensures ([xs[0]] + rest)[i] != ([xs[0]] + rest)[j]
            {
              if i == 0 {
                assert ([xs[0]] + rest)[j] == rest[j - 1];
                assert rest[j - 1] in rest;
              }
            }
          }
        }
        [xs[0]] + rest
  }

  /** The returned subscription's `unsubscribe()`: remove that observer and
      no other. */
  function Unsubscribe(s: Subject, o: ObserverId): (r: Subject)
    ensures Members(r) == Members(s) - {o}
    ensures Valid(s) ==> Valid(r)
    ensures o !in Members(s) ==> r == s
  {
    Subject(Without(s.observers, o))
  }

  /** Behind its first element a duplicate-free sequence is still
      duplicate-free and does not repeat that element. */
  lemma NoDuplicatesTail(xs: seq<ObserverId>)
    requires NoDuplicates(xs) && |xs| > 0
    ensures NoDuplicates(xs[1..]) && xs[0] !in xs[1..]
  {
    forall i, j | 0 <= i < j < |xs[1..]| ensures xs[1..][i] != xs[1..][j] {
      assert xs[1..][i] == xs[i + 1] && xs[1..][j] == xs[j + 1];
    }
    forall i | 0 <= i < |xs[1..]| ensures xs[1..][i] != xs[0] {
      assert xs[1..][i] == xs[i + 1];
    }
  }

  /** Deleting from a non-empty sequence, one element at a time. */
  lemma WithoutCons(xs: seq<ObserverId>, o: ObserverId)
    requires |xs| > 0
    ensures Without(xs, o) == if xs[0] == o then Without(xs[1..], o) else [xs[0]] + Without(xs[1..], o)
  {
  }

  /** Cutting position `k` out of `xs` is keeping its head and cutting
      position `k - 1` out of its tail. */
  lemma SpliceCons(xs: seq<ObserverId>, k: nat)
    requires 0 < k < |xs|
    ensures [xs[0]] + (xs[1..][..k - 1] + xs[1..][k..]) == xs[..k] + xs[k + 1..]
  {
    assert xs[1..][..k - 1] == xs[1..k];
    assert xs[1..][k..] == xs[k + 1..];
    assert xs[..k] == [xs[0]] + xs[1..k];
  }

  /** Deleting an element that occurs once, at position `k`, leaves the
      others where they were, in their order. */
  lemma {:induction false} WithoutDeletesAt(xs: seq<ObserverId>, o: ObserverId, k: nat)
    requires NoDuplicates(xs)
    requires k < |xs| && xs[k] == o
    ensures Without(xs, o) == xs[..k] + xs[k + 1..]
    decreases k
  {
    NoDuplicatesTail(xs);
    WithoutCons(xs, o);
    var tail := xs[1..];
    if k == 0 {
      assert xs[..0] + xs[1..] == tail;
    } else {
      assert tail[k - 1] == o;
      WithoutDeletesAt(tail, o, k - 1);
      SpliceCons(xs, k);
    }
  }

  /** `unsubscribe()` keeps the remaining observers in their subscription
      order, so later broadcasts reach them in the same order as before. */
  lemma UnsubscribeKeepsOrder(s: Subject, o: ObserverId, k: nat)
    requires Valid(s)
    requires k < |s.observers| && s.observers[k] == o
    ensures Unsubscribe(s, o).observers == s.observers[..k] + s.observers[k + 1..]
  {
    WithoutDeletesAt(s.observers, o, k);
  }

  /** Unsubscribing twice does the same as unsubscribing once. */
  lemma UnsubscribeIdempotent(s: Subject, o: ObserverId)
    ensures Unsubscribe(Unsubscribe(s, o), o) == Unsubscribe(s, o)
  {
  }

  /** Unsubscribing undoes subscribing a new observer exactly, order of the
      other observers included. */
  lemma {:induction false} UnsubscribeUndoesSubscribe(s: Subject, o: ObserverId)
    requires o !in Members(s)
    ensures Unsubscribe(Subscribe(s, o), o) == s
  {
    WithoutLast(s.observers, o);
  }

  /** Deleting an observer that was just appended, and occurs nowhere else, gives back the sequence before the append. */
  lemma {:induction false} WithoutLast(xs: seq<ObserverId>, o: ObserverId)
    requires o !in xs
    ensures Without(xs + [o], o) == xs
    decreases |xs|
  {
    if |xs| == 0 {
      assert [] + [o] == [o];
      assert [o][1..] == [];
    } else {
      assert (xs + [o])[1..] == xs[1..] + [o];
      assert (xs + [o])[0] == xs[0];
      WithoutLast(xs[1..], o);
      assert xs == [xs[0]] + xs[1..];
    }
  }

  /** Two unsubscriptions can happen in either order. */
  lemma {:induction false} UnsubscribeCommutes(s: Subject, a: ObserverId, b: ObserverId)
    ensures Unsubscribe(Unsubscribe(s, a), b) == Unsubscribe(Unsubscribe(s, b), a)
  {
    WithoutCommutes(s.observers, a, b);
  }

  /** Deleting two observers gives the same sequence in either order. */
  lemma {:induction false} WithoutCommutes(xs: seq<ObserverId>, a: ObserverId, b: ObserverId)
    ensures Without(Without(xs, a), b) == Without(Without(xs, b), a)
    decreases |xs|
  {
    if |xs| > 0 {
      WithoutCommutes(xs[1..], a, b);
      var x := xs[0];
      if x != a && x != b {
        assert Without(xs, a) == [x] + Without(xs[1..], a);
        assert Without(xs, b) == [x] + Without(xs[1..], b);
        assert ([x] + Without(xs[1..], a))[1..] == Without(xs[1..], a);
        assert ([x] + Without(xs[1..], b))[1..] == Without(xs[1..], b);
      } else if x == a && x != b {
        assert Without(xs, b) == [x] + Without(xs[1..], b);
        assert ([x] + Without(xs[1..], b))[1..] == Without(xs[1..], b);
      } else if x == b && x != a {
        assert Without(xs, a) == [x] + Without(xs[1..], a);
        assert ([x] + Without(xs[1..], a))[1..] == Without(xs[1..], a);
      }
    }
  }

  /** What an observer may do to the Subject while it is being notified. */
  datatype Action = Attach(observer: ObserverId) | Detach(observer: ObserverId)

  /** One channel call made on one observer. */
  datatype Delivery<V, E> = Delivery(observer: ObserverId, event: Event<V, E>)

  /** The state after a broadcast and the calls it made, in order. */
  datatype Broadcasted<V, E> = Broadcasted(subject: Subject, deliveries: seq<Delivery<V, E>>)

  /** One subscription or unsubscription made while being notified. */
  function Perform(s: Subject, a: Action): (r: Subject)
    ensures Valid(s) ==> Valid(r)
  {
    match a
    case Attach(o) => Subscribe(s, o)
    case Detach(o) => Unsubscribe(s, o)
  }

  /** The (un)subscriptions one notified observer makes, in order. */
  function PerformAll(s: Subject, acts: seq<Action>): (r: Subject)
    ensures Valid(s) ==> Valid(r)
    decreases |acts|
  {
    if |acts| == 0 then s else PerformAll(Perform(s, acts[0]), acts[1..])
  }

  /** The observers called, in call order. */
  function Recipients<V, E>(ds: seq<Delivery<V, E>>): (os: seq<ObserverId>)
    ensures |os| == |ds|
    ensures forall i :: 0 <= i < |ds| ==> os[i] == ds[i].observer
  {
    if |ds| == 0 then [] else [ds[0].observer] + Recipients(ds[1..])
  }

  /** `subject.next(v)`, `subject.error(e)` and `subject.complete()`: copy
      the set into an array first, then call the same channel on each
      observer of the copy, applying whatever (un)subscriptions the observer
      makes while it is being called. Every observer present at the start is
      called exactly once, whatever the observers do to the set meanwhile. */
  function Broadcast<V, E>(s: Subject, ev: Event<V, E>, react: (ObserverId, Event<V, E>) -> seq<Action>)
    : (r: Broadcasted<V, E>)
    ensures Recipients(r.deliveries) == s.observers
    ensures forall i :: 0 <= i < |r.deliveries| ==> r.deliveries[i].event == ev
    ensures Valid(s) ==> Valid(r.subject)
  {
    Visit(s.observers, s, ev, react)
  }

  /** The loop over the snapshot: `snapshot` is what is left of the copy,
      `s` the live set. */
  function Visit<V, E>(snapshot: seq<ObserverId>, s: Subject, ev: Event<V, E>,
                       react: (ObserverId, Event<V, E>) -> seq<Action>): (r: Broadcasted<V, E>)
    ensures Recipients(r.deliveries) == snapshot
    ensures forall i :: 0 <= i < |r.deliveries| ==> r.deliveries[i].event == ev
    ensures Valid(s) ==> Valid(r.subject)
  {
    if |snapshot| == 0 then Broadcasted(s, [])
    else
      var o := snapshot[0];
      var rest := Visit(snapshot[1..], PerformAll(s, react(o, ev)), ev, react);
      var ds := [Delivery(o, ev)] + rest.deliveries;
      assert Recipients(ds) == [o] + Recipients(rest.deliveries) by {
        assert ds[1..] == rest.deliveries;
      }
      Broadcasted(rest.subject, ds)
  }

  /** A sequence without duplicates holds each of its elements once. */
  lemma {:induction false} NoDuplicatesCount(xs: seq<ObserverId>, o: ObserverId)
    requires NoDuplicates(xs)
    ensures multiset(xs)[o] == if o in xs then 1 else 0
    decreases |xs|
  {
    if |xs| > 0 {
      assert xs == [xs[0]] + xs[1..];
      assert NoDuplicates(xs[1..]) by {
        forall i, j | 0 <= i < j < |xs[1..]| ensures xs[1..][i] != xs[1..][j] {
          assert xs[1..][i] == xs[i + 1] && xs[1..][j] == xs[j + 1];
        }
      }
      assert xs[0] !in xs[1..] by {
        forall i | 0 <= i < |xs[1..]| ensures xs[1..][i] != xs[0] {
          assert xs[1..][i] == xs[i + 1];
        }
      }
      NoDuplicatesCount(xs[1..], o);
      assert multiset(xs) == multiset{xs[0]} + multiset(xs[1..]);
    }
  }

  /** Every observer subscribed when the broadcast starts is called exactly
      once; every other observer, including one that subscribes during the
      broadcast, is not called at all. */
  lemma BroadcastExactlyOnce<V, E>(s: Subject, ev: Event<V, E>,
                                   react: (ObserverId, Event<V, E>) -> seq<Action>, o: ObserverId)
    requires Valid(s)
    ensures multiset(Recipients(Broadcast(s, ev, react).deliveries))[o]
            == if o in Members(s) then 1 else 0
  {
    NoDuplicatesCount(s.observers, o);
  }

  /** Observers in `leaving` unsubscribe themselves when notified, the others
      do nothing: each is still notified once, and afterwards exactly the
      leaving ones are gone. */
  lemma SelfUnsubscribeDuringBroadcast<V, E>(s: Subject, ev: Event<V, E>,
                                             react: (ObserverId, Event<V, E>) -> seq<Action>,
                                             leaving: set<ObserverId>)
    requires forall o :: react(o, ev) == if o in leaving then [Detach(o)] else []
    ensures Recipients(Broadcast(s, ev, react).deliveries) == s.observers
    ensures Members(Broadcast(s, ev, react).subject) == Members(s) - leaving
  {
    VisitSelfUnsubscribe(s.observers, s, ev, react, leaving);
  }

  /** The reaction of one notified observer: it leaves when in `leaving`. */
  lemma SelfUnsubscribeStep<V, E>(s: Subject, o: ObserverId, ev: Event<V, E>,
                                  react: (ObserverId, Event<V, E>) -> seq<Action>,
                                  leaving: set<ObserverId>)
    requires react(o, ev) == if o in leaving then [Detach(o)] else []
    ensures Members(PerformAll(s, react(o, ev))) == Members(s) - (leaving * {o})
  {
    if o in leaving {
      assert [Detach(o)][1..] == [];
      assert PerformAll(s, [Detach(o)]) == PerformAll(Perform(s, Detach(o)), []);
    }
  }

  /** Removing the leavers among `{o}` and then among `later` removes the
      leavers among both. */
  lemma LeaveInTurn(members: set<ObserverId>, leaving: set<ObserverId>, o: ObserverId, later: set<ObserverId>)
    ensures (members - (leaving * {o})) - (leaving * later) == members - (leaving * ({o} + later))
  {
  }

  /** The elements of a non-empty sequence are its head and the elements of its tail. */
  lemma ElementsOfCons(xs: seq<ObserverId>)
    requires |xs| > 0
    ensures (set x | x in xs) == {xs[0]} + (set x | x in xs[1..])
  {
    assert xs == [xs[0]] + xs[1..];
  }

  /** The loop of `SelfUnsubscribeDuringBroadcast`: the leavers met in `snapshot` are removed. */
  lemma {:induction false} VisitSelfUnsubscribe<V, E>(snapshot: seq<ObserverId>, s: Subject, ev: Event<V, E>,
                                                      react: (ObserverId, Event<V, E>) -> seq<Action>,
                                                      leaving: set<ObserverId>)
    requires forall o :: react(o, ev) == if o in leaving then [Detach(o)] else []
    ensures Members(Visit(snapshot, s, ev, react).subject)
            == Members(s) - (leaving * (set o | o in snapshot))
    decreases |snapshot|
  {
    if |snapshot| > 0 {
      var o := snapshot[0];
      var s' := PerformAll(s, react(o, ev));
      SelfUnsubscribeStep(s, o, ev, react, leaving);
      VisitSelfUnsubscribe(snapshot[1..], s', ev, react, leaving);
      assert Visit(snapshot, s, ev, react).subject == Visit(snapshot[1..], s', ev, react).subject;
      ElementsOfCons(snapshot);
      LeaveInTurn(Members(s), leaving, o, set x | x in snapshot[1..]);
    }
  }
}
